=== FILE: README.md ===
# Shifty shift-coordination core, modelled in Dafny

Shifty choreographs "shared element" transitions between two screens. Each
screen offers `State`s. A `State` pairs a live view with an identifier and
a `Configuration` that says how its stand-in (the "replicant") is produced:
either a snapshot of the view, or a view returned by a configurator closure.
A `ShiftCoordinator` pairs source states with destination states of equal
identifier and produces one `Shift` per pair, each carrying the
coordinator's timing context. While a shift runs, the replicant sits in the
transition's container and the live view is hidden. Cleanup shows the live
view again and removes the replicant.

This project models that sequential core:

- `wrappers.dfy` (`Wrappers`): `Option`, the result of a lookup that may find nothing.
- `views.dfy` (`Views`): an abstract view world.
  - Views are opaque `nat` ids.
  - A per-view `Layer` holds the hidden flag, the corner radius, `masksToBounds`,
    where the view was placed (`applyState`) and, for a snapshot, what it captured.
  - A `superview` map says which container holds each view. `Children(w, c)` is the
    set of subviews of container `c`.
  - The UIKit calls the core makes are pure functions on this world:
    `isHidden`, `cornerRadius`, `masksToBounds`, `addSubview`,
    `removeFromSuperview`, `snapshotView`. Each contract says what it changes
    and that nothing else changes.
- `states.dfy` (`States`):
  - `State`, its identifier-only `==` and `hashValue`, and its initializer.
  - `Configuration.configuredShiftingView`, `viewForShiftWithRespect`,
    `configuredReplicantView`, `cleanupReplicantView` and `configureNativeView`.
  - Lemmas for the replicant lifecycle:
    - While the replicant is in place, exactly one of the live view and its
      replicant is visible. This holds always for a snapshot, and for a
      configurator that returns a visible view other than the live one.
    - Insert-then-cleanup shows the live view again and restores the transition
      container's subviews.
    - For a snapshot of a visible view, insert-then-cleanup restores every
      pre-existing view exactly. For a configurator, the returned view keeps its
      new placement, and a view that sat in another container ends up in none.
- `coordinator.dfy` (`Coordinator`): `Shift`, `DefaultCoordinator` and
  `shifts(from:to:)`.
  - Lemmas state source order, first-match pairing, the match count, the fate of
    unmatched sources and destinations, and duplicate identifiers.
  - `ComputeShifts` is a loop version of the same search (the iteration that
    `compactMap` and `first(where:)` perform), proved equal to `Shifts`.

The timing context is opaque: it is the type parameter `T` of `Shift` and
`DefaultCoordinator`.

Two choices about the code:

- `configuredShiftingView` stops with `fatalError` when the platform cannot
  snapshot the base view (Shifty/Classes/Model/State.swift:28). The model
  makes that a precondition, `base in w.renderable`.
- Matching is a linear search for the first equal destination, as
  `first(where:)` performs it (Sources/Shifty/Protocols/ShiftCoordinator.swift:31).

## Model

| member | source | states |
|---|---|---|
| `States.Init` | Shifty/Classes/Model/State.swift:49-53 | the initializer stores the given view, identifier and configuration unchanged |
| `States.InitDefaultsToSnapshot` | Shifty/Classes/Model/State.swift:49 | when no configuration is given, it is `.snapshot` |
| `States.Equal` | Shifty/Classes/Model/State.swift:105-107 | `==` on states compares identifiers only; its properties are stated by `States.EqualityIsByIdentifier` and `States.EqualityIsEquivalence` |
| `States.HashValue` | Shifty/Classes/Model/State.swift:101-103 | `hashValue` is the identifier's hash; consistency with `==` is stated by `States.EqualStatesHashEqually` |
| `States.EqualityIsByIdentifier` | Shifty/Classes/Model/State.swift:105-107 | two states are equal exactly when their identifiers are equal; changing a state's view or configuration never changes what it equals |
| `States.EqualityIsEquivalence` | Shifty/Classes/Model/State.swift:105-107 | state equality is reflexive, symmetric and transitive |
| `States.EqualStatesHashEqually` | Shifty/Classes/Model/State.swift:101-107 | equal states have equal hash values, for any hash of identifiers |
| `States.SnapshotShiftingView` | Shifty/Classes/Model/State.swift:23-35 | the snapshot is a new view, captured while the base view's radius was 0; it clips to bounds and gets the base view's original radius; the base view's radius is restored, and every view that existed before is left exactly as it was |
| `States.ConfiguredShiftingView` | Shifty/Classes/Model/State.swift:21-40 | `.configured(f)` returns `f(baseView)` and changes nothing; `.snapshot` yields a new visible view carrying the base view's radius, `masksToBounds` set and a capture taken at radius 0; no pre-existing view changes |
| `States.ViewForShift` | Shifty/Classes/Model/State.swift:71-73 | the state's configuration applied to the state's own view: for `.configured` the configurator's view with the world unchanged; for a snapshot a new visible view that carries the state's view's radius, clips to bounds and was captured at radius 0; the existing world is left as it was |
| `States.ConfigureNativeView` | Shifty/Classes/Model/State.swift:93-95 | the state's view is visible exactly when `hidden` is false; its hidden flag is the only property of it that changes; no other view and no container changes |
| `States.AddAndPlace` | Shifty/Classes/Model/State.swift:63-64 | the replicant moves into the container and out of any other; it is placed where the state's view stands and nothing else about it changes; every other view is unchanged |
| `States.PlaceReplicant` | Shifty/Classes/Model/State.swift:63-67 | the replicant joins the container and leaves any other container; it is placed as the state's view and nothing else about it changes; the state's view is hidden and nothing else about it changes; every other view is unchanged |
| `States.ConfiguredReplicantView` | Shifty/Classes/Model/State.swift:59-69 | the returned view is the replicant: a fresh view for a snapshot, the configurator's result otherwise. It is now a child of the container and placed as the state's view. The native view is hidden and otherwise unchanged. Every other pre-existing view is unchanged, so no other hidden flag and no pre-existing corner radius changes |
| `States.CleanupReplicantView` | Shifty/Classes/Model/State.swift:79-82 | the native view is visible and otherwise unchanged; the replicant is in no container; every other view is unchanged |
| `States.ReplicantIsTheOnlyVisibleCopy` | Shifty/Classes/Model/State.swift:59-69 | after insertion exactly one of the native view and the replicant is visible: always for a snapshot, and for a configurator when it returns a visible view other than the native one |
| `States.InsertThenCleanupRestores` | Shifty/Classes/Model/State.swift:59-82 | when the replicant was in no container beforehand (always true for a snapshot; for a configurator, its view must not be mounted), insert then cleanup leaves the native view visible, the replicant in no container, and every container's children exactly as before the insert |
| `States.TransitionContainerRestored` | Shifty/Classes/Model/State.swift:63-81 | for every replicant that was not already a subview of the transition container, including a configurator's view mounted elsewhere, that container holds exactly its old subviews after insert then cleanup |
| `States.MountedConfiguratorViewIsDetached` | Shifty/Classes/Model/State.swift:63-81 | a configurator's view that was a subview of another container ends up in no container: that container loses it and keeps its other subviews |
| `States.ConfiguratorViewInContainerIsRemoved` | Shifty/Classes/Model/State.swift:63-81 | a configurator's view that was already a subview of the transition container is taken out of it by cleanup: the container ends up with its old subviews minus that view |
| `States.IdentityConfiguratorLeavesItsScene` | Shifty/Classes/Model/State.swift:59-82 | with the configurator `{ $0 }`, a native view mounted in its scene is visible after cleanup but no longer in that scene |
| `States.InsertThenCleanupKeepsFlags` | Shifty/Classes/Model/State.swift:59-82 | across insert then cleanup, no other view's hidden flag and no corner radius changes |
| `States.SnapshotRoundTripRestoresWorld` | Shifty/Classes/Model/State.swift:21-82 | for a snapshot of a visible view, insert then cleanup restores every pre-existing view and its container exactly; only the detached snapshot remains |
| `Views.SetHidden` | Shifty/Classes/Model/State.swift:93-95 | setting `isHidden` changes only that view's hidden flag |
| `Views.SetCornerRadius` | Shifty/Classes/Model/State.swift:25-33 | setting a layer's corner radius changes only that view's radius |
| `Views.SetMasksToBounds` | Shifty/Classes/Model/State.swift:31 | setting `masksToBounds` changes only that view's flag |
| `Views.AddSubview` | Shifty/Classes/Model/State.swift:63 | the view becomes a child of the container and leaves every other container; nothing else changes |
| `Views.RemoveFromSuperview` | Shifty/Classes/Model/State.swift:81 | the view is in no container afterwards; every container loses exactly that view; nothing else changes |
| `Views.RemoveUndoesAdd` | Shifty/Classes/Model/State.swift:59-82 | adding a view that had no container and then removing it restores the world exactly |
| `Views.ApplyState` | Shifty/Classes/Model/State.swift:75-77 | placing a replicant records where it stands and changes nothing else, not even its hidden flag or corner radius |
| `Views.SnapshotView` | Shifty/Classes/Model/State.swift:28 | a snapshot is a fresh view that is visible, in no container and without subviews. It records the base view and its radius at that instant. Every existing view is unchanged |
| `Coordinator.FirstMatchIndex` | Sources/Shifty/Protocols/ShiftCoordinator.swift:31 | the position of the first destination equal to the source; none exactly when no destination is equal |
| `Coordinator.FirstMatch` | Sources/Shifty/Protocols/ShiftCoordinator.swift:31 | `first { $0 == source }` finds a destination exactly when one is equal, and then the first such |
| `Coordinator.Shifts` | Sources/Shifty/Protocols/ShiftCoordinator.swift:29-33 | at most one shift per source; empty sources or empty destinations give no shifts; every shift carries the coordinator's timing context; every shift's source is one of the sources; its destination is the first destination equal to its source, so the two identifiers are equal |
| `Coordinator.MatchedFromIsIncreasing` | Sources/Shifty/Protocols/ShiftCoordinator.swift:30-32 | the matched source positions increase strictly and are exactly the positions whose source has an equal destination |
| `Coordinator.ShiftsTakeMatchedSources` | Sources/Shifty/Protocols/ShiftCoordinator.swift:30-32 | the i-th shift's source is the source at the i-th matched position |
| `Coordinator.ShiftsFollowSourceOrder` | Sources/Shifty/Protocols/ShiftCoordinator.swift:29-33 | the shifts' sources sit at strictly increasing source positions, and a position appears exactly when its source has an equal destination: unmatched sources are skipped, and each matched one, duplicates included, yields its own shift |
| `Coordinator.ShiftCountIsMatchCount` | Sources/Shifty/Protocols/ShiftCoordinator.swift:30-32 | the number of shifts equals the number of sources that have an equal destination |
| `Coordinator.FirstMatchIsUnique` | Sources/Shifty/Protocols/ShiftCoordinator.swift:31 | sources with equal identifiers have the same first-matching destination |
| `Coordinator.DuplicateSourcesShareDestination` | Sources/Shifty/Protocols/ShiftCoordinator.swift:30-31 | shifts whose sources have equal identifiers pair with the same destination |
| `Coordinator.UnmatchedDestinationNeverShifts` | Sources/Shifty/Protocols/ShiftCoordinator.swift:30-32 | a destination whose identifier no source has never appears in a shift |
| `Coordinator.FindFirstMatch` | Sources/Shifty/Protocols/ShiftCoordinator.swift:31 | the loop version of `first(where:)` stops at the position `FirstMatchIndex` names, or past the end exactly when no destination is equal |
| `Coordinator.ShiftsAppend` | Sources/Shifty/Protocols/ShiftCoordinator.swift:30-33 | matching the concatenation of two source lists gives the concatenation of their shifts |
| `Coordinator.ComputeShifts` | Sources/Shifty/Protocols/ShiftCoordinator.swift:29-33 | the loop version (a linear search per source for the first equal destination) produces exactly the shifts of `Shifts` |
| `Coordinator.CoordinatorTimingIsUniform` | Sources/Shifty/Protocols/ShiftCoordinator.swift:17-22 | a coordinator built with a timing context gives exactly that context to every shift |
| `Coordinator.SharedElementScenario` | Sources/Shifty/Protocols/ShiftCoordinator.swift:29-33 | two scenes share "yellow" and "orange", and the destinations add "purple" and a second "yellow": there are exactly two shifts, in source order, and "yellow" pairs with the first "yellow" |

## Left out

- `DefaultCoordinator.init(timingCurve:)` (ShiftCoordinator.swift:24-26): it builds a UIKit cubic timing context. Timing contexts are opaque here, so only `init(animationContext:)` is modelled.
- `currentSnapshot()` and `Snapshot(view:)` geometry (State.swift:75-77, 89-91): `Snapshot` is not part of this model. `applyState` is the uninterpreted step `ApplyState`, which records only that the replicant now stands where the state's view stands.
- States.InsertThenCleanupRestores: it excludes configurators whose view already sits in a container, for example `.configured { $0 }` on a mounted native view. The code does not restore the world for them, in one of two ways. If the view sits in another container, `addSubview` (State.swift:63) moves it out of that container and `removeFromSuperview` (State.swift:81) does not put it back; `States.TransitionContainerRestored`, `States.MountedConfiguratorViewIsDetached` and `States.IdentityConfiguratorLeavesItsScene` state this case. If the view is already a subview of the transition container, `addSubview` leaves it there and `removeFromSuperview` takes it out, so the container loses it; `States.ConfiguratorViewInContainerIsRemoved` states this case.
- Views.ApplyState: `Snapshot.applyState(to:in:)` is not part of this model. The step is assumed to leave the replicant's `isHidden` and `cornerRadius` alone. The "no corner radius changes" clauses of `States.PlaceReplicant`, `States.ConfiguredReplicantView` and `States.InsertThenCleanupKeepsFlags` rest on that assumption when the replicant is a configurator's existing view.
- `SnapshotView(contentView:)` (State.swift:29): this wrapper type is not part of this model. The platform snapshot and its wrapper are one fresh view.
- Pixel snapshotting is a platform call. `SnapshotView` produces a fresh view id, and the set `renderable` stands for the views the platform can snapshot.
- Configurator closures are modelled as pure functions from a view to an existing view of the world. Any side effects a closure has on the hierarchy, and views it builds afresh, are not modelled.
- `States.CanBuild`: a configurator's view must already be in the world and must not be the container. Adding a view to itself fails in UIKit. Adding a view to one of its own descendants also fails in UIKit, but the model has no ancestry, so it does not rule that out.
- Visibility is a view's own hidden flag. Hiding through a hidden ancestor, alpha and on-screen geometry are not modelled.
- Inside `configuredReplicantView`, the replicant is added before the native view is hidden. The "exactly one visible" invariant is therefore stated between calls, not between the statements of one call.
- `hashValue` uses an arbitrary identifier hash, passed as a function parameter. The `Int` width of Swift hashes plays no role in any stated property.
- AnimationContext.swift (cubic and spring timing, keyframe windows in `TimeInterval` doubles): floating-point animation timing. Timing contexts are opaque values inside `Shift`.
- SimpleShiftAnimator.swift and PrecommitShiftTransitionAnimator.swift: UIKit transition-context plumbing, `UIView.animate` calls and asynchronous completion callbacks.
- ShiftExampleViewControllerA.swift and SimpleTransitioningDelegate.swift: storyboard, button and presentation wiring of the example app.

=== FILE: coordinator.dfy ===
/**
  Shift matching: `DefaultCoordinator.shifts(from:to:)` pairs every source
  state with the first destination state of equal identifier, in source
  order, and gives each pair the coordinator's one timing context. Sources
  without a counterpart are skipped. The timing context is opaque here (the
  type parameter `T`).
 */
module Coordinator {
  import opened Wrappers
  import opened States

  /** A source and a destination state of equal identifier, and the timing
      context that drives the stand-in from one to the other. */
  datatype Shift<Id, T> = Shift(source: State<Id>, destination: State<Id>, timingContext: T)

  /** `DefaultCoordinator(animationContext:)`: one timing context for all its shifts. */
  datatype DefaultCoordinator<T> = DefaultCoordinator(timingContext: T)

  /** Some destination is equal to `source`. */
  ghost predicate HasMatch<Id>(destinations: seq<State<Id>>, source: State<Id>)
  {
    exists j :: 0 <= j < |destinations| && Equal(destinations[j], source)
  }

  /** `d` is the first destination equal to `source`: it sits at some index
      `k`, and no destination before `k` has `source`'s identifier. */
  ghost predicate IsFirstMatch<Id>(destinations: seq<State<Id>>, source: State<Id>, d: State<Id>)
  {
    exists k :: 0 <= k < |destinations| && destinations[k] == d && Equal(d, source)
      && forall j :: 0 <= j < k ==> !Equal(destinations[j], source)
  }

  /** The position of the first destination equal to `source`, if any. */
  function FirstMatchIndex<Id(==)>(destinations: seq<State<Id>>, source: State<Id>): (r: Option<nat>)
    ensures r.None? <==> !HasMatch(destinations, source)
    ensures r.Some? ==>
      && r.value < |destinations|
      && Equal(destinations[r.value], source)
      && forall j :: 0 <= j < r.value ==> !Equal(destinations[j], source)
  {
    if |destinations| == 0 then None
    else if Equal(destinations[0], source) then Some(0)
    else match FirstMatchIndex(destinations[1..], source)
      case None =>
        assert forall j :: 1 <= j < |destinations| ==> destinations[j] == destinations[1..][j - 1];
        None
      case Some(k) =>
        assert forall j :: 1 <= j < k + 1 ==> destinations[j] == destinations[1..][j - 1];
        Some(k + 1)
  }

  /** `destinations.first { $0 == source }`. */
  function FirstMatch<Id(==)>(destinations: seq<State<Id>>, source: State<Id>): (r: Option<State<Id>>)
    ensures r.Some? <==> HasMatch(destinations, source)
    ensures r.Some? ==> IsFirstMatch(destinations, source, r.value)
  {
    match FirstMatchIndex(destinations, source)
    case None => None
    case Some(k) => Some(destinations[k])
  }

  /** `shifts(from:to:)`: the `compactMap` over the sources. */
  function Shifts<Id(==), T>(c: DefaultCoordinator<T>, sources: seq<State<Id>>, destinations: seq<State<Id>>): (r: seq<Shift<Id, T>>)
    ensures |r| <= |sources|
    ensures |sources| == 0 || |destinations| == 0 ==> r == []
    ensures forall i :: 0 <= i < |r| ==> r[i].timingContext == c.timingContext
    ensures forall i :: 0 <= i < |r| ==> r[i].source in sources
    ensures forall i :: 0 <= i < |r| ==> Equal(r[i].source, r[i].destination)
    ensures forall i :: 0 <= i < |r| ==> IsFirstMatch(destinations, r[i].source, r[i].destination)
    decreases |sources|
  {
    if |sources| == 0 then []
    else
      var rest := Shifts(c, sources[1..], destinations);
      match FirstMatch(destinations, sources[0])
      case None => rest
      case Some(d) => [Shift(sources[0], d, c.timingContext)] + rest
  }

  /** The number of sources that have an equal destination. */
  ghost function MatchCount<Id>(sources: seq<State<Id>>, destinations: seq<State<Id>>): nat
  {
    if |sources| == 0 then 0
    else (if HasMatch(destinations, sources[0]) then 1 else 0) + MatchCount(sources[1..], destinations)
  }

  /** The positions, from `from` on, of the sources that have an equal
      destination, in increasing order. */
  ghost function MatchedFrom<Id>(sources: seq<State<Id>>, destinations: seq<State<Id>>, from: nat): seq<nat>
    requires from <= |sources|
    decreases |sources| - from
  {
    if from == |sources| then []
    else (if HasMatch(destinations, sources[from]) then [from] else []) + MatchedFrom(sources, destinations, from + 1)
  }

  /** The matched positions from `from` on are exactly the positions at or
      after `from` whose source has a match, and they increase strictly. */
  lemma {:induction false} MatchedFromIsIncreasing<Id>(sources: seq<State<Id>>, destinations: seq<State<Id>>, from: nat)
    requires from <= |sources|
    ensures var m := MatchedFrom(sources, destinations, from);
      && (forall i :: 0 <= i < |m| ==> from <= m[i] < |sources|)
      && (forall i, j :: 0 <= i < j < |m| ==> m[i] < m[j])
      && (forall k :: from <= k < |sources| ==> (k in m <==> HasMatch(destinations, sources[k])))
    decreases |sources| - from
  {
    if from < |sources| {
      MatchedFromIsIncreasing(sources, destinations, from + 1);
    }
  }

  /** The shifts of the sources from `from` on take their sources from the
      matched positions, one shift per position. */
  lemma {:induction false} ShiftsTakeMatchedSources<Id, T>(c: DefaultCoordinator<T>, sources: seq<State<Id>>, destinations: seq<State<Id>>, from: nat)
    requires from <= |sources|
    ensures var r := Shifts(c, sources[from..], destinations);
      var m := MatchedFrom(sources, destinations, from);
      && |m| == |r|
      && (forall i :: 0 <= i < |m| ==> m[i] < |sources| && r[i].source == sources[m[i]])
    decreases |sources| - from
  {
    if from < |sources| {
      var tail := sources[from..];
      assert tail[0] == sources[from] && tail[1..] == sources[from + 1..];
      ShiftsTakeMatchedSources(c, sources, destinations, from + 1);
      var rest := Shifts(c, sources[from + 1..], destinations);
      var m := MatchedFrom(sources, destinations, from + 1);
      match FirstMatch(destinations, sources[from])
      case None =>
        assert Shifts(c, tail, destinations) == rest;
        assert MatchedFrom(sources, destinations, from) == m;
      case Some(d) =>
        assert Shifts(c, tail, destinations) == [Shift(sources[from], d, c.timingContext)] + rest;
        assert MatchedFrom(sources, destinations, from) == [from] + m;
    }
  }

  /** Output order follows source order: the shifts' sources are the sources
      at strictly increasing positions `idx`, and a position is among them
      exactly when its source has an equal destination. So unmatched sources
      are skipped, and every matched one (duplicates included) yields its own
      shift. */
  lemma ShiftsFollowSourceOrder<Id, T>(c: DefaultCoordinator<T>, sources: seq<State<Id>>, destinations: seq<State<Id>>)
    returns (idx: seq<nat>)
    ensures var r := Shifts(c, sources, destinations);
      && |idx| == |r|
      && (forall i :: 0 <= i < |idx| ==> idx[i] < |sources| && r[i].source == sources[idx[i]])
      && (forall i, j :: 0 <= i < j < |idx| ==> idx[i] < idx[j])
      && (forall k :: 0 <= k < |sources| ==> (k in idx <==> HasMatch(destinations, sources[k])))
  {
    idx := MatchedFrom(sources, destinations, 0);
    MatchedFromIsIncreasing(sources, destinations, 0);
    ShiftsTakeMatchedSources(c, sources, destinations, 0);
    assert sources[0..] == sources;
  }

  /** The number of shifts is the number of sources that have a match. */
  lemma {:induction false} ShiftCountIsMatchCount<Id, T>(c: DefaultCoordinator<T>, sources: seq<State<Id>>, destinations: seq<State<Id>>)
    ensures |Shifts(c, sources, destinations)| == MatchCount(sources, destinations)
    decreases |sources|
  {
    if |sources| > 0 {
      ShiftCountIsMatchCount(c, sources[1..], destinations);
    }
  }

  /** Sources with equal identifiers have the same first match. */
  lemma FirstMatchIsUnique<Id>(destinations: seq<State<Id>>, a: State<Id>, b: State<Id>, da: State<Id>, db: State<Id>)
    requires Equal(a, b) && IsFirstMatch(destinations, a, da) && IsFirstMatch(destinations, b, db)
    ensures da == db
  {
    var ka :| 0 <= ka < |destinations| && destinations[ka] == da && Equal(da, a)
      && forall j :: 0 <= j < ka ==> !Equal(destinations[j], a);
    var kb :| 0 <= kb < |destinations| && destinations[kb] == db && Equal(db, b)
      && forall j :: 0 <= j < kb ==> !Equal(destinations[j], b);
    if ka < kb {
      assert Equal(destinations[ka], b);
    } else if kb < ka {
      assert Equal(destinations[kb], a);
    }
  }

  /** Duplicate source identifiers all pair with the same destination: the
      first one of that identifier. */
  lemma DuplicateSourcesShareDestination<Id, T>(c: DefaultCoordinator<T>, sources: seq<State<Id>>, destinations: seq<State<Id>>)
    ensures var r := Shifts(c, sources, destinations);
      forall i, j :: 0 <= i < |r| && 0 <= j < |r| && Equal(r[i].source, r[j].source) ==>
        r[i].destination == r[j].destination
  {
    var r := Shifts(c, sources, destinations);
    forall i, j | 0 <= i < |r| && 0 <= j < |r| && Equal(r[i].source, r[j].source)
      ensures r[i].destination == r[j].destination
    {
      FirstMatchIsUnique(destinations, r[i].source, r[j].source, r[i].destination, r[j].destination);
    }
  }

  /** A destination whose identifier no source has never takes part in a
      shift: every shift's destination has an identifier some source has. */
  lemma UnmatchedDestinationNeverShifts<Id, T>(c: DefaultCoordinator<T>, sources: seq<State<Id>>, destinations: seq<State<Id>>, k: nat)
    requires k < |destinations|
    requires forall j :: 0 <= j < |sources| ==> !Equal(sources[j], destinations[k])
    ensures var r := Shifts(c, sources, destinations);
      forall i :: 0 <= i < |r| ==> !Equal(r[i].destination, destinations[k])
  {
    var r := Shifts(c, sources, destinations);
    forall i | 0 <= i < |r|
      ensures !Equal(r[i].destination, destinations[k])
    {
      var j :| 0 <= j < |sources| && sources[j] == r[i].source;
    }
  }

  /** Shift matching distributes over concatenated sources. */
  lemma {:induction false} ShiftsAppend<Id, T>(c: DefaultCoordinator<T>, s1: seq<State<Id>>, s2: seq<State<Id>>, destinations: seq<State<Id>>)
    ensures Shifts(c, s1 + s2, destinations) == Shifts(c, s1, destinations) + Shifts(c, s2, destinations)
    decreases |s1|
  {
    if |s1| == 0 {
      assert s1 + s2 == s2;
    } else {
      assert (s1 + s2)[1..] == s1[1..] + s2;
      ShiftsAppend(c, s1[1..], s2, destinations);
    }
  }

  /** `first(where:)` as a loop: a linear search for the first destination
      equal to `source`; `|destinations|` when there is none. */
  method FindFirstMatch<Id(==)>(destinations: seq<State<Id>>, source: State<Id>) returns (k: nat)
    ensures k <= |destinations|
    ensures k < |destinations| ==> FirstMatchIndex(destinations, source) == Some(k)
    ensures k == |destinations| ==> FirstMatchIndex(destinations, source).None?
  {
    k := 0;
    while k < |destinations| && !Equal(destinations[k], source)
      invariant 0 <= k <= |destinations|
      invariant forall j :: 0 <= j < k ==> !Equal(destinations[j], source)
    {
      k := k + 1;
    }
  }

  /** The iteration `compactMap` performs: for every source in order, search
      for its first equal destination and emit a shift when there is one. */
  method ComputeShifts<Id(==), T>(c: DefaultCoordinator<T>, sources: seq<State<Id>>, destinations: seq<State<Id>>)
    returns (r: seq<Shift<Id, T>>)
    ensures r == Shifts(c, sources, destinations)
  {
    r := [];
    var i := 0;
    while i < |sources|
      invariant 0 <= i <= |sources|
      invariant r == Shifts(c, sources[..i], destinations)
    {
      var source := sources[i];
      var k := FindFirstMatch(destinations, source);
      ShiftsAppend(c, sources[..i], [source], destinations);
      assert sources[..i + 1] == sources[..i] + [source];
      if k < |destinations| {
        r := r + [Shift(source, destinations[k], c.timingContext)];
      }
      i := i + 1;
    }
    assert sources[..i] == sources;
  }

  /** A coordinator built with a timing context hands exactly that context
      to every shift it produces. */
  lemma CoordinatorTimingIsUniform<Id, T>(timingContext: T, sources: seq<State<Id>>, destinations: seq<State<Id>>)
    ensures var r := Shifts(DefaultCoordinator(timingContext), sources, destinations);
      forall i :: 0 <= i < |r| ==> r[i].timingContext == timingContext
  {
  }

  /** Two scenes share "yellow" and "orange"; the destination also has
      "purple" and a second "yellow". Exactly two shifts come out, in source
      order, and "yellow" pairs with the first "yellow" destination. */
  lemma SharedElementScenario(timingContext: int)
    ensures var sources := [Init(1, "yellow"), Init(2, "orange")];
      var destinations := [Init(3, "yellow"), Init(4, "orange"), Init(5, "purple"), Init(6, "yellow")];
      var r := Shifts(DefaultCoordinator(timingContext), sources, destinations);
      && |r| == 2
      && r[0].source.view == 1 && r[0].destination.view == 3
      && r[1].source.view == 2 && r[1].destination.view == 4
  {
  }
}

=== FILE: states.dfy ===
/**
  A `State` is one shifting view: the live view, the identifier that pairs
  it with its counterpart on the other side of a transition, and how its
  stand-in (the replicant) is produced. States are compared by identifier
  alone. The replicant lifecycle hides the live view for as long as the
  replicant is in the container and shows it again at cleanup.
 */
module States {
  import opened Wrappers
  import opened Views

  /** How the stand-in for a base view is produced: a snapshot of the base
      view's current rendering, or whatever view the configurator returns for it. */
  datatype Configuration = Snapshot | Configured(configurator: ViewId -> ViewId)

  datatype State<Id> = State(view: ViewId, identifier: Id, configuration: Configuration)

  /** A view together with the world it was made in. */
  datatype Built = Built(world: World, view: ViewId)

  /** `State(view:identifier:configuration:)`; the configuration defaults to
      a snapshot. */
  function Init<Id>(view: ViewId, identifier: Id, configuration: Configuration := Snapshot): (s: State<Id>)
    ensures s.view == view && s.identifier == identifier
    ensures s.configuration == configuration
  {
    State(view, identifier, configuration)
  }

  lemma InitDefaultsToSnapshot<Id>(view: ViewId, identifier: Id)
    ensures Init(view, identifier).configuration.Snapshot?
    ensures Init(view, identifier).view == view && Init(view, identifier).identifier == identifier
  {
  }

  /** The `==` of `State`: identifiers alone decide. */
  predicate Equal<Id(==)>(a: State<Id>, b: State<Id>)
  {
    a.identifier == b.identifier
  }

  /** The `hashValue` of `State`, for a given hash of identifiers. */
  function HashValue<Id>(s: State<Id>, hash: Id -> int): int
  {
    hash(s.identifier)
  }

  /** Equality ignores the view and the configuration: two states with the
      same identifier are equal whatever else they hold, and states with
      different identifiers never are. */
  lemma EqualityIsByIdentifier<Id>(a: State<Id>, b: State<Id>)
    ensures Equal(a, b) <==> a.identifier == b.identifier
    ensures forall v: ViewId, c: Configuration ::
      Equal(a, b) <==> Equal(a.(view := v, configuration := c), b)
  {
  }

  /** `==` is an equivalence relation, as `Hashable` demands. */
  lemma EqualityIsEquivalence<Id>(a: State<Id>, b: State<Id>, c: State<Id>)
    ensures Equal(a, a)
    ensures Equal(a, b) ==> Equal(b, a)
    ensures Equal(a, b) && Equal(b, c) ==> Equal(a, c)
  {
  }

  /** Equal states hash equally, whichever identifier hash is used. */
  lemma EqualStatesHashEqually<Id>(a: State<Id>, b: State<Id>, hash: Id -> int)
    ensures Equal(a, b) ==> HashValue(a, hash) == HashValue(b, hash)
  {
  }

  /** The conditions under which a configuration can produce a stand-in for
      `base` to be put into `container`: a snapshot needs a view the platform
      can render (`configuredShiftingView` stops with `fatalError` otherwise); a
      configurator must return a view of the world that is not the container. */
  ghost predicate CanBuild(c: Configuration, w: World, base: ViewId, container: ViewId)
  {
    match c
    case Snapshot => base in w.renderable
    case Configured(f) => f(base) in w.layers && f(base) != container
  }

  /** The `.snapshot` case of `configuredShiftingView`. The snapshot is taken
      while the base view's corner radius is zero; the radius is then given to
      the snapshot, which clips to it, and restored on the base view, so every
      view that existed before is left exactly as it was. */
  function SnapshotShiftingView(w: World, base: ViewId, afterScreenUpdates: bool): (b: Built)
    requires Valid(w) && base in w.layers && base in w.renderable
    ensures Valid(b.world)
    ensures b.view !in w.layers && b.world.layers.Keys == w.layers.Keys + {b.view}
    ensures AgreesOn(w, b.world, w.layers.Keys) && b.world.superview == w.superview
    ensures b.world.layers[base].cornerRadius == w.layers[base].cornerRadius
    ensures b.world.layers[b.view].cornerRadius == w.layers[base].cornerRadius
    ensures b.world.layers[b.view].masksToBounds
    ensures b.world.layers[b.view].capture == Some(Capture(base, 0.0, afterScreenUpdates))
    ensures Visible(b.world, b.view)
  {
    var radius := w.layers[base].cornerRadius;
    var w1 := SetCornerRadius(w, base, 0.0);
    var made := SnapshotView(w1, base, afterScreenUpdates);
    var s := made.1;
    var w2 := SetMasksToBounds(made.0, s, true);
    var w3 := SetCornerRadius(w2, s, radius);
    var w4 := SetCornerRadius(w3, base, radius);
    assert w4.layers[base] == w.layers[base];
    Built(w4, s)
  }

  /** `Configuration.configuredShiftingView(for:afterScreenUpdates:)`: a
      snapshot of the base view, or the configurator's view used as it is.
      Either way, the views that existed before are left as they were. */
  function ConfiguredShiftingView(c: Configuration, w: World, base: ViewId, afterScreenUpdates: bool): (b: Built)
    requires Valid(w) && base in w.layers
    requires c.Snapshot? ==> base in w.renderable
    requires c.Configured? ==> c.configurator(base) in w.layers
    ensures Valid(b.world) && b.view in b.world.layers
    ensures b.world.layers.Keys == w.layers.Keys + {b.view}
    ensures AgreesOn(w, b.world, w.layers.Keys) && b.world.superview == w.superview
    ensures c.Configured? ==> b.world == w && b.view == c.configurator(base)
    ensures c.Snapshot? ==>
      && b.view !in w.layers
      && Visible(b.world, b.view)
      && b.world.layers[b.view].cornerRadius == w.layers[base].cornerRadius
      && b.world.layers[b.view].masksToBounds
      && b.world.layers[b.view].capture == Some(Capture(base, 0.0, afterScreenUpdates))
  {
    match c
    case Snapshot => SnapshotShiftingView(w, base, afterScreenUpdates)
    case Configured(f) => Built(w, f(base))
  }

  /** `viewForShiftWithRespect(toContainer:afterScreenUpdates:)`: the state's
      configuration applied to its own view. */
  function ViewForShift<Id>(s: State<Id>, w: World, afterScreenUpdates: bool): (b: Built)
    requires Valid(w) && s.view in w.layers
    requires s.configuration.Snapshot? ==> s.view in w.renderable
    requires s.configuration.Configured? ==> s.configuration.configurator(s.view) in w.layers
    ensures Valid(b.world) && b.view in b.world.layers
    ensures b.world.layers.Keys == w.layers.Keys + {b.view}
    ensures AgreesOn(w, b.world, w.layers.Keys) && b.world.superview == w.superview
    ensures s.configuration.Configured? ==> b.world == w && b.view == s.configuration.configurator(s.view)
    ensures s.configuration.Snapshot? ==>
      && b.view !in w.layers
      && Visible(b.world, b.view)
      && b.world.layers[b.view].cornerRadius == w.layers[s.view].cornerRadius
      && b.world.layers[b.view].masksToBounds
      && b.world.layers[b.view].capture == Some(Capture(s.view, 0.0, afterScreenUpdates))
  {
    ConfiguredShiftingView(s.configuration, w, s.view, afterScreenUpdates)
  }

  /** `configureNativeView(hidden:)`: only the state's own hidden flag changes. */
  function ConfigureNativeView<Id>(s: State<Id>, w: World, hidden: bool): (w': World)
    requires Valid(w) && s.view in w.layers
    ensures Valid(w') && w'.layers.Keys == w.layers.Keys
    ensures Visible(w', s.view) == !hidden
    ensures w'.layers[s.view] == w.layers[s.view].(hidden := hidden)
    ensures AgreesOn(w, w', w.layers.Keys - {s.view}) && w'.superview == w.superview
  {
    SetHidden(w, s.view, hidden)
  }

  /** `container.addSubview(replicant)` followed by `applyState`: the replicant
      moves into the container and is placed where `source` stands; no other
      view changes. */
  function AddAndPlace(w: World, container: ViewId, replicant: ViewId, source: ViewId): (w': World)
    requires Valid(w) && container in w.layers && replicant in w.layers && replicant != container
    ensures Valid(w') && w'.layers.Keys == w.layers.Keys
    ensures Children(w', container) == Children(w, container) + {replicant}
    ensures forall c :: c != container ==> Children(w', c) == Children(w, c) - {replicant}
    ensures w'.layers[replicant] == w.layers[replicant].(placedAs := Some(source))
    ensures forall v :: v in w.layers && v != replicant ==> w'.layers[v] == w.layers[v]
  {
    ApplyState(AddSubview(w, container, replicant), replicant, source)
  }

  /** The steps of `configuredReplicantView` after the replicant exists: add
      it to the container, place it as the state's view is placed, and hide
      the state's view. */
  function PlaceReplicant<Id>(s: State<Id>, w: World, container: ViewId, replicant: ViewId): (w': World)
    requires Valid(w) && s.view in w.layers && container in w.layers && replicant in w.layers
    requires replicant != container
    ensures Valid(w') && w'.layers.Keys == w.layers.Keys
    ensures Children(w', container) == Children(w, container) + {replicant}
    ensures forall c :: c != container ==> Children(w', c) == Children(w, c) - {replicant}
    ensures w'.layers[replicant].placedAs == Some(s.view)
    ensures replicant != s.view ==> w'.layers[replicant] == w.layers[replicant].(placedAs := Some(s.view))
    ensures !Visible(w', s.view)
    ensures forall v :: v in w.layers && v != s.view ==> w'.layers[v].hidden == w.layers[v].hidden
    ensures forall v :: v in w.layers && v != s.view && v != replicant ==> w'.layers[v] == w.layers[v]
    ensures replicant != s.view ==> w'.layers[s.view] == w.layers[s.view].(hidden := true)
    ensures forall v :: v in w.layers ==> w'.layers[v].cornerRadius == w.layers[v].cornerRadius
  {
    var w1 := AddAndPlace(w, container, replicant, s.view);
    SetHidden(w1, s.view, true)
  }

  /** `configuredReplicantView(inContainer:afterScreenUpdates:)`: build the
      replicant, add it to the container, place it as the state's view is
      placed, and hide the state's view. */
  function ConfiguredReplicantView<Id>(s: State<Id>, w: World, container: ViewId, afterScreenUpdates: bool): (b: Built)
    requires Valid(w) && s.view in w.layers && container in w.layers
    requires CanBuild(s.configuration, w, s.view, container)
    ensures Valid(b.world) && b.world.layers.Keys == w.layers.Keys + {b.view}
    ensures s.configuration.Configured? ==>
      b.view == s.configuration.configurator(s.view) && b.world.layers.Keys == w.layers.Keys
    ensures s.configuration.Snapshot? ==>
      b.view !in w.layers && b.world.layers.Keys == w.layers.Keys + {b.view}
    // the replicant is in the container, placed as the state's view
    ensures b.view in Children(b.world, container)
    ensures Children(b.world, container) == Children(w, container) + {b.view}
    ensures forall c :: c != container ==> Children(b.world, c) == Children(w, c) - {b.view}
    ensures b.world.layers[b.view].placedAs == Some(s.view)
    // the state's view is hidden, and no other view's hidden flag changes
    ensures !Visible(b.world, s.view)
    ensures forall v :: v in w.layers && v != s.view ==> b.world.layers[v].hidden == w.layers[v].hidden
    // corner radii of the views that already existed are as they were
    ensures forall v :: v in w.layers ==> b.world.layers[v].cornerRadius == w.layers[v].cornerRadius
    // no view that already existed changes, except the state's view, which is hidden
    ensures forall v :: v in w.layers && v != s.view && v != b.view ==> b.world.layers[v] == w.layers[v]
    ensures b.view != s.view ==> b.world.layers[s.view] == w.layers[s.view].(hidden := true)
  {
    var made := ViewForShift(s, w, afterScreenUpdates);
    var w' := PlaceReplicant(s, made.world, container, made.view);
    Built(w', made.view)
  }

  /** `cleanupReplicantView(_:)`: show the state's view again and take the
      replicant out of whatever container holds it. Nothing else changes. */
  function CleanupReplicantView<Id>(s: State<Id>, w: World, replicant: ViewId): (w': World)
    requires Valid(w) && s.view in w.layers
    ensures Valid(w') && w'.layers.Keys == w.layers.Keys
    ensures Visible(w', s.view)
    ensures w'.layers[s.view] == w.layers[s.view].(hidden := false)
    ensures replicant !in w'.superview
    ensures forall c :: replicant !in Children(w', c)
    ensures forall c :: Children(w', c) == Children(w, c) - {replicant}
    ensures forall v :: v in w.layers && v != s.view ==> w'.layers[v] == w.layers[v]
  {
    RemoveFromSuperview(SetHidden(w, s.view, false), replicant)
  }

  /** While the replicant is in place, exactly one of the state's view and
      its replicant is visible. For a snapshot this always holds; for a
      configurator it holds when the configurator returns a visible view other
      than the state's own. */
  lemma ReplicantIsTheOnlyVisibleCopy<Id>(s: State<Id>, w: World, container: ViewId, afterScreenUpdates: bool)
    requires Valid(w) && s.view in w.layers && container in w.layers
    requires CanBuild(s.configuration, w, s.view, container)
    requires s.configuration.Configured? ==>
      s.configuration.configurator(s.view) != s.view && Visible(w, s.configuration.configurator(s.view))
    ensures var b := ConfiguredReplicantView(s, w, container, afterScreenUpdates);
      Visible(b.world, b.view) && !Visible(b.world, s.view)
  {
    var made := ViewForShift(s, w, afterScreenUpdates);
    assert Visible(made.world, made.view);
  }

  /** Insert-then-cleanup round trip: the state's view is visible again, the
      replicant is in no container, and every container holds exactly the
      subviews it held before.
      A configurator's view must not have been in a container beforehand
      (cleanup would otherwise take it out of that one as well). */
  lemma InsertThenCleanupRestores<Id>(s: State<Id>, w: World, container: ViewId, afterScreenUpdates: bool)
    requires Valid(w) && s.view in w.layers && container in w.layers
    requires CanBuild(s.configuration, w, s.view, container)
    requires s.configuration.Configured? ==> s.configuration.configurator(s.view) !in w.superview
    ensures var b := ConfiguredReplicantView(s, w, container, afterScreenUpdates);
      var w' := CleanupReplicantView(s, b.world, b.view);
      && Visible(w', s.view)
      && b.view !in w'.superview
      && (forall c :: Children(w', c) == Children(w, c))
  {
    var b := ConfiguredReplicantView(s, w, container, afterScreenUpdates);
    var w' := CleanupReplicantView(s, b.world, b.view);
    assert b.view !in w.superview;
    ChildrenRestored(w, b.world, w', container, b.view);
  }

  /** The transition container holds exactly its old subviews after insert
      then cleanup, for every replicant that was not already one of them,
      including a configurator's view that sits in some other container. */
  lemma TransitionContainerRestored<Id>(s: State<Id>, w: World, container: ViewId, afterScreenUpdates: bool)
    requires Valid(w) && s.view in w.layers && container in w.layers
    requires CanBuild(s.configuration, w, s.view, container)
    requires s.configuration.Configured? ==> s.configuration.configurator(s.view) !in Children(w, container)
    ensures var b := ConfiguredReplicantView(s, w, container, afterScreenUpdates);
      var w' := CleanupReplicantView(s, b.world, b.view);
      Children(w', container) == Children(w, container)
  {
    var made := ViewForShift(s, w, afterScreenUpdates);
    assert Children(made.world, container) == Children(w, container);
    PlaceThenCleanupRestoresContainer(s, made.world, container, made.view);
  }

  /** Placing a replicant that was not yet a subview of `container` and
      cleaning it up again leaves `container` with its old subviews. */
  lemma PlaceThenCleanupRestoresContainer<Id>(s: State<Id>, w: World, container: ViewId, r: ViewId)
    requires Valid(w) && s.view in w.layers && container in w.layers && r in w.layers && r != container
    requires r !in Children(w, container)
    ensures Children(CleanupReplicantView(s, PlaceReplicant(s, w, container, r), r), container) == Children(w, container)
  {
    var before := Children(w, container);
    assert (before + {r}) - {r} == before;
  }

  /** A configurator's view that was a subview of another container `d` is,
      after insert then cleanup, in no container at all: `d` loses it and
      keeps its other subviews. */
  lemma MountedConfiguratorViewIsDetached<Id>(s: State<Id>, w: World, container: ViewId, d: ViewId, afterScreenUpdates: bool)
    requires Valid(w) && s.view in w.layers && container in w.layers
    requires s.configuration.Configured? && CanBuild(s.configuration, w, s.view, container)
    requires s.configuration.configurator(s.view) in Children(w, d) && d != container
    ensures var b := ConfiguredReplicantView(s, w, container, afterScreenUpdates);
      var w' := CleanupReplicantView(s, b.world, b.view);
      && b.view in Children(w, d)
      && b.view !in w'.superview
      && Children(w', d) == Children(w, d) - {b.view}
  {
  }

  /** A configurator's view that was already a subview of the transition
      container stays there on insert, and cleanup takes it out: the container
      ends up with its old subviews minus that view. */
  lemma ConfiguratorViewInContainerIsRemoved<Id>(s: State<Id>, w: World, container: ViewId, afterScreenUpdates: bool)
    requires Valid(w) && s.view in w.layers && container in w.layers
    requires s.configuration.Configured? && CanBuild(s.configuration, w, s.view, container)
    requires s.configuration.configurator(s.view) in Children(w, container)
    ensures var b := ConfiguredReplicantView(s, w, container, afterScreenUpdates);
      var w' := CleanupReplicantView(s, b.world, b.view);
      Children(w', container) == Children(w, container) - {b.view}
  {
  }

  /** A concrete case: with the configurator `{ $0 }`, a native view 1 that is
      mounted in its scene 0 is moved into the transition container 2 and,
      after cleanup, is no longer in scene 0. */
  lemma IdentityConfiguratorLeavesItsScene()
    ensures
      var layer := Layer(false, 0.0, false, None, None);
      var w := World(map[0 := layer, 1 := layer, 2 := layer], map[1 := 0], {}, 3);
      var s := State(1, "native", Configured(v => v));
      var b := ConfiguredReplicantView(s, w, 2, false);
      var w' := CleanupReplicantView(s, b.world, b.view);
      && 1 in Children(w, 0)
      && 1 !in Children(w', 0)
      && Visible(w', 1)
  {
    var layer := Layer(false, 0.0, false, None, None);
    var w := World(map[0 := layer, 1 := layer, 2 := layer], map[1 := 0], {}, 3);
    var s := State(1, "native", Configured(v => v));
    assert Valid(w);
    MountedConfiguratorViewIsDetached(s, w, 2, 0, false);
  }

  /** Across the round trip no other view's hidden flag and no corner radius
      changes. */
  lemma InsertThenCleanupKeepsFlags<Id>(s: State<Id>, w: World, container: ViewId, afterScreenUpdates: bool)
    requires Valid(w) && s.view in w.layers && container in w.layers
    requires CanBuild(s.configuration, w, s.view, container)
    ensures var b := ConfiguredReplicantView(s, w, container, afterScreenUpdates);
      var w' := CleanupReplicantView(s, b.world, b.view);
      && (forall v :: v in w.layers && v != s.view ==> w'.layers[v].hidden == w.layers[v].hidden)
      && (forall v :: v in w.layers ==> w'.layers[v].cornerRadius == w.layers[v].cornerRadius)
  {
    var made := ViewForShift(s, w, afterScreenUpdates);
    PlaceThenCleanupKeepsFlags(s, made.world, container, made.view);
  }

  /** Placing a replicant and cleaning it up again changes no hidden flag but
      the state's own, and no corner radius. */
  lemma PlaceThenCleanupKeepsFlags<Id>(s: State<Id>, w: World, container: ViewId, r: ViewId)
    requires Valid(w) && s.view in w.layers && container in w.layers && r in w.layers && r != container
    ensures var w' := CleanupReplicantView(s, PlaceReplicant(s, w, container, r), r);
      && (forall v :: v in w.layers && v != s.view ==> w'.layers[v].hidden == w.layers[v].hidden)
      && (forall v :: v in w.layers ==> w'.layers[v].cornerRadius == w.layers[v].cornerRadius)
  {
  }

  /** For a snapshot of a visible view, the round trip restores every view
      that existed before exactly: the only trace it leaves is the detached
      snapshot itself. */
  lemma SnapshotRoundTripRestoresWorld<Id>(s: State<Id>, w: World, container: ViewId, afterScreenUpdates: bool)
    requires Valid(w) && s.view in w.layers && container in w.layers
    requires s.configuration.Snapshot? && s.view in w.renderable && Visible(w, s.view)
    ensures var b := ConfiguredReplicantView(s, w, container, afterScreenUpdates);
      var w' := CleanupReplicantView(s, b.world, b.view);
      && AgreesOn(w, w', w.layers.Keys)
      && w'.layers.Keys == w.layers.Keys + {b.view}
      && b.view !in w'.superview
  {
    var made := ViewForShift(s, w, afterScreenUpdates);
    assert made.view != s.view && made.view !in made.world.superview;
    PlaceThenCleanup(s, made.world, container, made.view);
    assert forall v :: v in w.layers ==> v != made.view && made.world.layers[v] == w.layers[v];
  }

  /** Placing a replicant that is in no container and cleaning it up again
      leaves every other view as it was, provided the state's view was visible. */
  lemma PlaceThenCleanup<Id>(s: State<Id>, w: World, container: ViewId, r: ViewId)
    requires Valid(w) && s.view in w.layers && container in w.layers && r in w.layers
    requires r != container && r != s.view && r !in w.superview && Visible(w, s.view)
    ensures var w' := CleanupReplicantView(s, PlaceReplicant(s, w, container, r), r);
      && w'.superview == w.superview
      && forall v :: v in w.layers && v != r ==> w'.layers[v] == w.layers[v]
  {
    var w1 := PlaceReplicant(s, w, container, r);
    var w2 := CleanupReplicantView(s, w1, r);
    assert w2.layers[s.view] == w.layers[s.view];
    assert w2.superview == w.superview by {
      assert w2.superview == w1.superview - {r};
      assert w1.superview == w.superview[r := container];
    }
  }

  /** Set bookkeeping for the round trip: a view that was in no container,
      added to one and then removed from all, leaves every container as it was. */
  lemma ChildrenRestored(w: World, w1: World, w2: World, container: ViewId, r: ViewId)
    requires r !in w.superview
    requires Children(w1, container) == Children(w, container) + {r}
    requires forall c :: c != container ==> Children(w1, c) == Children(w, c) - {r}
    requires forall c :: Children(w2, c) == Children(w1, c) - {r}
    ensures forall c :: Children(w2, c) == Children(w, c)
  {
    forall c
      ensures Children(w2, c) == Children(w, c)
    {
      assert r !in Children(w, c);
    }
  }
}

=== FILE: views.dfy ===
/**
  An abstract view hierarchy: the small part of a UIKit-like world that a
  shifting `State` reads and writes. Views are opaque identities; the
  platform owns their pixels. Every operation is a pure function from one
  world to the next.
 */
module Views {
  import opened Wrappers

  /** An opaque view identity. */
  type ViewId = nat

  /** What a snapshot captured: the view it was taken of, that view's corner
      radius at the instant of capture, and whether it waited for screen updates. */
  datatype Capture = Capture(base: ViewId, radius: real, afterScreenUpdates: bool)

  /** The per-view properties the core touches.
      - `placedAs == Some(v)` records that the view was placed with the
        geometry and appearance of the view `v` (the `applyState` step).
      - `capture` is what the view shows when it is a snapshot. */
  datatype Layer = Layer(
    hidden: bool,
    cornerRadius: real,
    masksToBounds: bool,
    placedAs: Option<ViewId>,
    capture: Option<Capture>)

  /** The views of the world are the keys of `layers`.
      - `superview` maps a view to the container it is a subview of (a view has
        at most one); the children of a container are derived by `Children`.
      - `renderable` is the set of views the platform is able to snapshot.
      - `nextId` is the allocator: every view of the world is below it. */
  datatype World = World(
    layers: map<ViewId, Layer>,
    superview: map<ViewId, ViewId>,
    renderable: set<ViewId>,
    nextId: ViewId)

  ghost predicate Valid(w: World)
  {
    && w.superview.Keys <= w.layers.Keys
    && w.superview.Values <= w.layers.Keys
    && (forall v :: v in w.layers ==> v < w.nextId)
  }

  /** A view is visible when it exists and its own hidden flag is off. */
  predicate Visible(w: World, v: ViewId)
  {
    v in w.layers && !w.layers[v].hidden
  }

  /** The subviews of `container`. */
  function Children(w: World, container: ViewId): set<ViewId>
  {
    set v | v in w.superview && w.superview[v] == container
  }

  /** Every view of `vs` exists in `w'` with the same properties and the same
      container as in `w`. */
  ghost predicate AgreesOn(w: World, w': World, vs: set<ViewId>)
  {
    forall v :: v in vs ==>
      && v in w.layers && v in w'.layers && w'.layers[v] == w.layers[v]
      && (v in w.superview <==> v in w'.superview)
      && (v in w.superview ==> w'.superview[v] == w.superview[v])
  }

  /** Replace the properties of the one view `v`; nothing else changes. */
  function UpdateLayer(w: World, v: ViewId, layer: Layer): (w': World)
    requires Valid(w) && v in w.layers
    ensures Valid(w') && w'.layers.Keys == w.layers.Keys
    ensures w'.layers[v] == layer
    ensures AgreesOn(w, w', w.layers.Keys - {v})
    ensures w'.superview == w.superview && w'.renderable == w.renderable && w'.nextId == w.nextId
  {
    w.(layers := w.layers[v := layer])
  }

  /** `view.isHidden = hidden`. */
  function SetHidden(w: World, v: ViewId, hidden: bool): (w': World)
    requires Valid(w) && v in w.layers
    ensures Valid(w') && w'.layers.Keys == w.layers.Keys
    ensures Visible(w', v) == !hidden
    ensures w'.layers[v] == w.layers[v].(hidden := hidden)
    ensures AgreesOn(w, w', w.layers.Keys - {v})
    ensures w'.superview == w.superview && w'.renderable == w.renderable && w'.nextId == w.nextId
  {
    UpdateLayer(w, v, w.layers[v].(hidden := hidden))
  }

  /** `view.layer.cornerRadius = radius`. */
  function SetCornerRadius(w: World, v: ViewId, radius: real): (w': World)
    requires Valid(w) && v in w.layers
    ensures Valid(w') && w'.layers.Keys == w.layers.Keys
    ensures w'.layers[v] == w.layers[v].(cornerRadius := radius)
    ensures AgreesOn(w, w', w.layers.Keys - {v})
    ensures w'.superview == w.superview && w'.renderable == w.renderable && w'.nextId == w.nextId
  {
    UpdateLayer(w, v, w.layers[v].(cornerRadius := radius))
  }

  /** `view.layer.masksToBounds = masks`. */
  function SetMasksToBounds(w: World, v: ViewId, masks: bool): (w': World)
    requires Valid(w) && v in w.layers
    ensures Valid(w') && w'.layers.Keys == w.layers.Keys
    ensures w'.layers[v] == w.layers[v].(masksToBounds := masks)
    ensures AgreesOn(w, w', w.layers.Keys - {v})
    ensures w'.superview == w.superview && w'.renderable == w.renderable && w'.nextId == w.nextId
  {
    UpdateLayer(w, v, w.layers[v].(masksToBounds := masks))
  }

  /** The `applyState(to:in:)` step: `r` is placed where `source` stands.
      The step is uninterpreted: it records the placement and changes nothing
      else, not even `r`'s hidden flag or corner radius. */
  function ApplyState(w: World, r: ViewId, source: ViewId): (w': World)
    requires Valid(w) && r in w.layers
    ensures Valid(w') && w'.layers.Keys == w.layers.Keys
    ensures w'.layers[r] == w.layers[r].(placedAs := Some(source))
    ensures AgreesOn(w, w', w.layers.Keys - {r})
    ensures w'.superview == w.superview && w'.renderable == w.renderable && w'.nextId == w.nextId
  {
    UpdateLayer(w, r, w.layers[r].(placedAs := Some(source)))
  }

  /** `container.addSubview(v)`: `v` leaves whatever container held it and
      becomes a subview of `container`. A view cannot be added to itself. */
  function AddSubview(w: World, container: ViewId, v: ViewId): (w': World)
    requires Valid(w) && container in w.layers && v in w.layers && container != v
    ensures Valid(w') && w'.layers == w.layers
    ensures w'.renderable == w.renderable && w'.nextId == w.nextId
    ensures Children(w', container) == Children(w, container) + {v}
    ensures forall c :: c != container ==> Children(w', c) == Children(w, c) - {v}
  {
    w.(superview := w.superview[v := container])
  }

  /** `v.removeFromSuperview()`: afterwards no container holds `v`; a view
      without a container is left as it is. */
  function RemoveFromSuperview(w: World, v: ViewId): (w': World)
    requires Valid(w)
    ensures Valid(w') && w'.layers == w.layers
    ensures w'.renderable == w.renderable && w'.nextId == w.nextId
    ensures v !in w'.superview
    ensures forall c :: Children(w', c) == Children(w, c) - {v}
  {
    w.(superview := w.superview - {v})
  }

  /** Adding a view that had no container and then removing it again leaves
      the world exactly as it was. */
  lemma RemoveUndoesAdd(w: World, container: ViewId, v: ViewId)
    requires Valid(w) && container in w.layers && v in w.layers && container != v
    requires v !in w.superview
    ensures RemoveFromSuperview(AddSubview(w, container, v), v) == w
  {
    assert w.superview[v := container] - {v} == w.superview;
  }

  /** `base.snapshotView(afterScreenUpdates:)`: the platform renders `base`
      into a fresh view that is visible, in no container, without subviews,
      and shows `base` as it looks at this instant. A view the platform cannot
      render has no snapshot: callers must only ask for renderable views. */
  function SnapshotView(w: World, base: ViewId, afterScreenUpdates: bool): (b: (World, ViewId))
    requires Valid(w) && base in w.layers && base in w.renderable
    ensures Valid(b.0) && b.0.renderable == w.renderable
    ensures b.1 !in w.layers && b.0.layers.Keys == w.layers.Keys + {b.1}
    ensures AgreesOn(w, b.0, w.layers.Keys)
    ensures b.1 !in b.0.superview && Children(b.0, b.1) == {}
    ensures !b.0.layers[b.1].hidden
    ensures b.0.layers[b.1].capture == Some(Capture(base, w.layers[base].cornerRadius, afterScreenUpdates))
  {
    var s := w.nextId;
    assert s !in w.layers && s !in w.superview.Values;
    var layer := Layer(false, 0.0, false, None, Some(Capture(base, w.layers[base].cornerRadius, afterScreenUpdates)));
    (w.(layers := w.layers[s := layer], nextId := s + 1), s)
  }
}

=== FILE: wrappers.dfy ===
/** The optional value returned by a lookup that may find nothing. */
module Wrappers {

  datatype Option<+T> = None | Some(value: T)
}
